=== FILE: README.md ===
# Signature dataset synthesizer — Dafny model

`synthesize.py` builds a training set for a signature detector. It pastes each
signature image (the *overlay*) onto each bill image (the *background*) at a
random size, angle and position. It then writes one CSV line per signature box
on the resulting composite. Those boxes are the pasted overlay plus jittered
copies of the signatures already hand-annotated on that background.

This project models the part of the script that is pure arithmetic and
bookkeeping once the random draws and the probed image sizes are known:

- `Config`: the constants: output directory, storage prefix, and the width, angle and jitter bounds.
- `Annotations`: the hand-authored table of known boxes per background.
- `Boxes`: pixel and real boxes, normalisation by the background size, and
  `round(x, 3)`.
- `Geometry`: the resize height, the rotation angle, `randint` with its empty
  range failure, and the placement of the rotated overlay.
- `Fuzz`: per-edge jitter of a known box (`fuzzy_dim`), and the jittered,
  normalised copies of a background's boxes.
- `Records`: the composite's path, the CSV line of a record, and splitting a
  line back into its fields.
- `Synthesis`: one pairing (`synthesize` together with
  `fuzzy_existing_annotations`). It returns the geometry handed to ImageMagick
  and the records, or the first error the script would raise.
- `Batch`: the loop over every background and then every overlay, as a loop
  method, with a functional reference definition of the whole dataset.

Every `random()` draw is a real in `[0, 1)` and every `randint(lo, hi)` draw is
an integer in `[lo, hi]`. Both are passed in as parameters (`Synthesis.Draws`).
So is the size that `identify` reports for the rotated overlay, and so is the
rendering of a number as text (`fmt`). Python floats are modelled as exact
reals.

In several places the script behaves differently from what its purpose might
suggest, and the model follows the script:

- A background missing from the known-box table is a `KeyError`, which aborts
  the batch. The table lookup is not treated as an empty list of boxes. The
  lookup (line 72) runs after the composite for that pairing has been written
  (line 98), so the aborted batch leaves that composite behind.
- The resized height is truncated (`int(...)`), not rounded.
- The rotation angle lies in `[-20, 19]`. The value `-20` occurs only for the
  draw `0.0`, and angle `0` takes a band of draws twice as wide as any other
  angle (`Geometry.RotationZeroBand`).
- The jitter of an edge is `2 * r * 10 - 10` for a draw `r` in `[0, 1)`. On
  exact reals that is `[-10, 10)`, half-open. In doubles the sum can round up
  to exactly `+10`, so the script can reach `[-10, 10]` (see `Fuzz.FuzzyDim`
  under "Left out").
- The placed box's normalised coordinates lie in `[0, 1]` inclusive. A left or
  top offset of 0 is a possible draw, so the box is not strictly inside.

## Model

| member | source | states |
|---|---|---|
| Geometry.ResizeHeight | synthesize.py:84-85 | for a target width in [150, 200], the resized height `th` is the integer with `th * w <= h * tw < (th + 1) * w` |
| Geometry.ResizeHeightIsQuotient | synthesize.py:85 | truncating the float quotient gives the same value as integer division `h * tw / w` |
| Geometry.ResizeKeepsAspect | synthesize.py:84-85 | the resized height lies within one pixel below the height that keeps the natural aspect ratio exactly |
| Geometry.Truncate | synthesize.py:85-86 | `int()` of a float moves toward zero by less than one and keeps the sign |
| Geometry.RotationAngle | synthesize.py:86 | the angle lies in [-20, 19], and it is -20 exactly when the draw is 0 |
| Geometry.RotationZeroBand | synthesize.py:86 | the angle is 0 exactly for draws in (0.475, 0.525) |
| Geometry.RandInt | synthesize.py:91-92 | `randint(lo, hi)` yields a value in [lo, hi] when lo <= hi, and otherwise fails on the named axis |
| Geometry.Place | synthesize.py:91-94 | placement succeeds exactly when the rotated overlay fits. The box then lies inside the background with the overlay's width and height. Otherwise the horizontal check fails first |
| Geometry.PlaceReachesEveryFit | synthesize.py:91-94 | every in-bounds position of the rotated overlay is produced by some pair of draws |
| Boxes.Normalize | synthesize.py:62-68 | multiplying each normalised coordinate by the background width or height gives back the pixel coordinate |
| Boxes.NormalizeRoundTrip | synthesize.py:62-68 | normalisation and scaling back are mutually inverse |
| Boxes.NormalizeInsideUnit | synthesize.py:62-68 | a box lies inside [0, w] x [0, h] if and only if its normalised box lies inside the unit square |
| Boxes.RoundHalfEven | synthesize.py:100-103 | yields the floor or the ceiling of its argument, at most one half away from it, and the even one on a tie |
| Boxes.RoundHalfEvenUnique | synthesize.py:100-103 | that contract has one solution: any integer within one half that is even on a tie is the rounded value |
| Boxes.Round3 | synthesize.py:100-103 | the result is a multiple of 1/1000, at most 0.0005 away from the input, the even multiple on a tie, and stays in [0, 1] when the input does |
| Boxes.Rounded3Unique | synthesize.py:100-103 | only one value is on the 1/1000 grid, within 0.0005 of the input and even on a tie: `round(x, 3)` is fully determined |
| Boxes.Round3Idempotent | synthesize.py:100-103 | rounding an already rounded value changes nothing |
| Boxes.RoundBox | synthesize.py:100-103 | each coordinate lands on the 1/1000 grid, at most 0.0005 from where it was and even on a tie, and a box inside the unit square stays inside |
| Annotations.KnownBoxesSturdy | synthesize.py:19-43 | every known box has non-negative corners and is at least 42 pixels wide and high |
| Annotations.KnownShape | synthesize.py:19-43 | the table has six backgrounds with one or two boxes each, and "2728cmr" has two |
| Fuzz.Delta | synthesize.py:56-59 | one draw shifts an edge by an amount in [-10, 10), and the draw can be recovered from the shift |
| Fuzz.FuzzyDim | synthesize.py:54-60 | each of the four edges ends within [-10, 10) of where it started |
| Fuzz.FuzzyDimReachesEveryNearBox | synthesize.py:54-60 | every box within that bound of the original is the outcome of some four draws |
| Fuzz.FuzzKeepsOrientation | synthesize.py:54-60 | a box at least 20 pixels wide and high keeps left < right and top < bottom after jitter |
| Fuzz.FuzzCanInvert | synthesize.py:54-60 | a box narrower than 19 pixels can come out with right < left: edge order is not restored |
| Fuzz.FuzzyBoxes | synthesize.py:72 | one normalised box per known box, in table order; box i scales back to known box i moved by its own four draws `jitters[i]`, and so to a jitter of it |
| Records.OutFileName | synthesize.py:96 | the name is `synthesized_2/`, the background name, `__`, the overlay name and `.jpg`, each read back at its fixed offset |
| Records.CloudPath | synthesize.py:74-76 | the path is the storage prefix, `synthesized_2/`, the background name, `__`, the overlay name and `.jpg`, each read back at its fixed offset |
| Records.OutFileNameExample | synthesize.py:96 | background "Ahola-1" and overlay "sig07" give "synthesized_2/Ahola-1__sig07.jpg" |
| Records.CloudPathExample | synthesize.py:74-76 | the same pair gives the cloud path "gs://phqb-automl-data/img/synthesized_2/Ahola-1__sig07.jpg" |
| Records.CloudPathComma | synthesize.py:74-76 | the path contains a comma exactly when one of the two base names does |
| Records.SplitJoin | synthesize.py:74 | splitting the comma-joined fields gives the fields back when none holds a comma |
| Records.LineFields | synthesize.py:105 | a record whose path and numbers are comma-free splits into exactly its 11 fields: UNASSIGNED, path, Signature, l, t, empty, empty, r, b, empty, empty |
| Records.Line | synthesize.py:105-111 | no escaping is done: the line has 11 fields plus one for every comma in the path or the rendered numbers |
| Synthesis.PlacedBox | synthesize.py:100-103 | the placed record's box lies in the unit square, and each coordinate is the exact fraction rounded to three decimals, ties to even |
| Synthesis.FuzzyRecords | synthesize.py:70-81 | fails with KeyError exactly when the background is not in the table. Otherwise it gives one record per known box, all with the pair's path; record i scales back to known box i moved by its own draws `jitters[i]` |
| Synthesis.Synthesize | synthesize.py:83-112 | succeeds exactly when the overlay fits and the background is known, and otherwise gives the first error the script raises. On success it returns the drawn resize width and offset, the height truncated from the aspect ratio, the angle `2 * r * 20 - 20` truncated toward zero, the pair's output file, and 1 + (number of known boxes) records sharing one path. The first record is the placed box inside [0, 1]^2 and the rest are jittered known boxes |
| Synthesis.FirstRecordIsPlacement | synthesize.py:91-103 | the first record's coordinates are the placement offsets and far edges divided by the background size, rounded to three decimals |
| Synthesis.SynthesizeLines | synthesize.py:105-112 | a pairing yields 1 + (number of known boxes) lines exactly when it succeeds |
| Synthesis.SynthesizeLinesShape | synthesize.py:105-112 | with comma-free names and numbers, each line of a pairing has 11 fields: the fixed ones, the pair's cloud path, and the renders of its record's left, top, right and bottom in columns 4, 5, 8 and 9 |
| Synthesis.KnownRecordsStayOriented | synthesize.py:70-72 | with the shipped table, every fuzzed record keeps left < right and top < bottom |
| Synthesis.FuzzedRecordsAreJitters | synthesize.py:54-72 | in a synthesised pair, record i (for i ≥ 1) scales back to known box i-1 moved by the pair's draws `jitters[i-1]` |
| Synthesis.KnownBackgroundScenario | synthesize.py:83-112 | "2728cmr" with a 300x100 overlay that fits gives 3 records and a resize height of tw / 3. The first record lies in the unit square and the other two are jitters of the two known boxes |
| Synthesis.UnknownBackgroundFails | synthesize.py:72 | any background missing from the table fails with KeyError naming it, once the overlay fits |
| Batch.Collect | synthesize.py:131 | accumulating outcomes succeeds exactly when all succeed, with the summed length. Otherwise it gives the error of an outcome preceded only by successes |
| Batch.CollectConcatenates | synthesize.py:131 | on success each outcome's lines sit, in order, right after the lines of the outcomes before it |
| Batch.CollectPrefixFailure | synthesize.py:129-131 | once a prefix of the pairings has failed, the batch's result is that failure |
| Batch.PairOutcomes | synthesize.py:129-130 | one outcome per (background, overlay) pair: number of backgrounds x number of overlays |
| Batch.PairOutcomesOrder | synthesize.py:129-131 | outcome number i * (number of overlays) + j is background i paired with overlay j |
| Batch.Dataset | synthesize.py:124-131 | the batch produces its dataset exactly when every pairing fits and every background is in the table |
| Batch.PairOutcomesSucceed | synthesize.py:129-131 | every pairing succeeds exactly when every overlay fits its background and every background is in the table |
| Batch.BuildDataset | synthesize.py:124-131 | the nested loop with early abort computes exactly the reference dataset |
| Batch.AppendRow | synthesize.py:130-131 | the inner loop appends one background's pairings in overlay order, or returns the batch's failure |
| Batch.DatasetLength | synthesize.py:129-131 | a successful dataset has (number of overlays) x (sum over backgrounds of 1 + number of known boxes) lines |

## Left out

- The external commands (`convert` for the resize, rotation and composite, and `rm` of the temporary file) at lines 88, 98 and 139 are external processes. For a successful pairing the model returns the geometry they receive instead.
- On a failing pairing the model returns only the error. By then the script has already run the resize and rotation (line 88) and `identify` (line 89). Before a `KeyError` it has also written the composite `synthesized_2/<background>__<overlay>.jpg` (line 98), and the temporary file is never removed (line 139 is not reached). These files are side effects outside the model.
- `get_image_size` (lines 48-52) runs `identify` and parses its output. Probed sizes are inputs, and they are positive (`Boxes.Dim`). The division-by-zero paths of a zero-sized image cannot arise from a real probe and are not modelled.
- `basename_wo_ext`, the directory listing and the `isfile` filter (lines 45-46, 114-120) are operating-system path handling. Base names and the image lists are inputs.
- `seed()` and the random generator (lines 5, 122): every draw is a constrained parameter.
- Progress printing (lines 132-137) and writing `dataset.csv` (lines 141-144) are output only. The model stops at the ordered sequence of lines.
- Python's decimal rendering of floats in `format` is the parameter `fmt`.
- Boxes.Round3: models `round(x, 3)` on the exact real value, ties to even. Python rounds the binary double, so a value that prints as an exact tie may round the other way.
- Geometry.ResizeHeight: the quotient `h * tw / w` is exact here. Python computes it as a double, which matches only while the operands stay far below 2^53.
- Fuzz.FuzzyDim: the jittered coordinates are exact reals, not doubles. The upper bound `< 10` on an edge's shift holds only on exact reals. In doubles, `random() = 1 - 2^-53` gives a shift of `9.999999999999996`, and adding that to a coordinate such as 387 rounds to exactly `397.0`, so the script can shift an edge by `+10`.

=== FILE: annotations.dfy ===
/** The hand-authored table of signature boxes already present on some
    backgrounds, keyed by the background's base name (synthesize.py:19-43).
    Each box is stored as its top-left corner and that corner plus the box's
    width and height, in the background's own pixels.
 */
module Annotations {
  import opened Boxes

  type Table = map<string, seq<PixelBox>>

  /** A box given by its corner and its extent, as the table writes it. */
  function Corner(left: int, top: int, width: int, height: int): PixelBox {
    PixelBox(left, top, left + width, top + height)
  }

  const Known: Table := map[
    "2728cmr" := [Corner(387, 962, 89, 113), Corner(531, 987, 78, 78)],
    "226716_cmr" := [Corner(81, 861, 159, 92), Corner(299, 874, 200, 79)],
    "Ahola-1" := [Corner(384, 1067, 139, 42), Corner(502, 1016, 222, 90)],
    "Ahola-pod-416776" := [Corner(110, 914, 205, 77), Corner(329, 912, 151, 88)],
    "HWL_200953_001" := [Corner(283, 865, 149, 82)],
    "HWL_200953_003" := [Corner(333, 980, 113, 83), Corner(505, 980, 170, 81)]
  ]

  /** A box whose every side is at least `m` pixels long, in the first quadrant. */
  predicate Sturdy(p: PixelBox, m: int) {
    0 <= p.left && 0 <= p.top && p.left + m <= p.right && p.top + m <= p.bottom
  }

  /** Every known box is non-negative and at least 42 pixels on each side. */
  lemma KnownBoxesSturdy()
    ensures forall key | key in Known ::
      forall i | 0 <= i < |Known[key]| :: Sturdy(Known[key][i], 42)
  {
  }

  lemma KnownBoxSturdy(key: string, i: int)
    requires key in Known && 0 <= i < |Known[key]|
    ensures Sturdy(Known[key][i], 42)
  {
    KnownBoxesSturdy();
  }

  /** The table has six backgrounds with one or two boxes each. */
  lemma KnownShape()
    ensures |Known| == 6
    ensures forall key | key in Known :: 1 <= |Known[key]| <= 2
    ensures |Known["2728cmr"]| == 2 && |Known["HWL_200953_001"]| == 1
    ensures Known["2728cmr"][0] == PixelBox(387, 962, 476, 1075)
  {
    assert Known.Keys == {"2728cmr", "226716_cmr", "Ahola-1", "Ahola-pod-416776",
                          "HWL_200953_001", "HWL_200953_003"};
  }
}

=== FILE: batch.dfy ===
/** The batch driver: every background paired with every overlay, background
    outermost, the lines of all pairings concatenated in that order
    (synthesize.py:124-131). The first pairing that fails aborts the batch.
 */
module Batch {
  import opened Outcomes
  import opened Annotations
  import opened Synthesis

  type Lines = seq<string>

  /** `draws[i][j]` are the draws of background `i` paired with overlay `j`. */
  predicate BatchDraws(bills: seq<Image>, signs: seq<Image>, draws: seq<seq<Draws>>, table: Table) {
    && |draws| == |bills|
    && forall i | 0 <= i < |bills| ::
         && |draws[i]| == |signs|
         && forall j | 0 <= j < |signs| :: ValidDraws(draws[i][j], bills[i], table)
  }

  /** Every overlay fits every background once rotated, and every background
      is in the table. */
  predicate AllFit(bills: seq<Image>, signs: seq<Image>, draws: seq<seq<Draws>>, table: Table)
    requires BatchDraws(bills, signs, draws, table)
  {
    forall i, j | 0 <= i < |bills| && 0 <= j < |signs| ::
      Fits(draws[i][j], bills[i]) && bills[i].name in table
  }

  predicate AllSucceed(outs: seq<Result<Lines>>) {
    forall k | 0 <= k < |outs| :: outs[k].Success?
  }

  /** Total number of lines the successful outcomes carry. */
  function Lengths(outs: seq<Result<Lines>>): nat {
    if |outs| == 0 then 0
    else Lengths(outs[..|outs| - 1]) + (if outs[|outs| - 1].Success? then |outs[|outs| - 1].value| else 0)
  }

  /** `dataset += ...` over a sequence of outcomes: the concatenation of their
      lines when all succeed, otherwise the first failure. */
  function Collect(outs: seq<Result<Lines>>): (r: Result<Lines>)
    ensures r.Success? <==> AllSucceed(outs)
    ensures r.Success? ==> |r.value| == Lengths(outs)
    ensures r.Failure? ==> exists k | 0 <= k < |outs| ::
      outs[k].Failure? && r.error == outs[k].error && AllSucceed(outs[..k])
    decreases |outs|
  {
    if |outs| == 0 then Success([])
    else
      var init := outs[..|outs| - 1];
      var last := outs[|outs| - 1];
      var prev := Collect(init);
      if prev.Failure? then
        assert forall k | 0 <= k < |init| :: init[k] == outs[k];
        assert forall k | 0 <= k < |init| :: init[..k] == outs[..k];
        prev
      else if last.Failure? then
        assert outs[..|outs| - 1] == init;
        Failure(last.error)
      else
        assert forall k | 0 <= k < |init| :: init[k] == outs[k];
        Success(prev.value + last.value)
  }

  /** On success the dataset is the lines of every outcome concatenated in
      the order of the outcomes. */
  lemma {:induction false} CollectConcatenates(outs: seq<Result<Lines>>)
    requires Collect(outs).Success?
    ensures Concatenates(outs, Collect(outs).value)
    decreases |outs|
  {
    if |outs| > 0 {
      var init := outs[..|outs| - 1];
      var last := outs[|outs| - 1];
      assert Collect(init).Success?;
      CollectConcatenates(init);
      assert outs == init + [last];
      ConcatenatesSnoc(init, last, Collect(init).value);
    }
  }

  /** `v` is the lines of every outcome, each outcome's lines sitting, in
      order, right after those of the outcomes before it. */
  predicate Concatenates(outs: seq<Result<Lines>>, v: Lines) {
    forall k | 0 <= k < |outs| :: SitsAt(outs, v, k)
  }

  /** Outcome `k` succeeded and its lines are in `v` right after the lines of
      the outcomes before it. */
  predicate SitsAt(outs: seq<Result<Lines>>, v: Lines, k: nat)
    requires k < |outs|
  {
    && outs[k].Success?
    && Lengths(outs[..k]) + |outs[k].value| <= |v|
    && v[Lengths(outs[..k])..Lengths(outs[..k]) + |outs[k].value|] == outs[k].value
  }

  lemma ConcatenatesSnoc(init: seq<Result<Lines>>, x: Result<Lines>, v: Lines)
    requires Concatenates(init, v) && |v| == Lengths(init) && x.Success?
    ensures Concatenates(init + [x], v + x.value)
  {
    forall k | 0 <= k < |init + [x]|
      ensures SitsAt(init + [x], v + x.value, k)
    {
      if k < |init| {
        assert SitsAt(init, v, k);
        SitsAtEarlier(init, x, v, k);
      } else {
        SitsAtLast(init, x, v);
      }
    }
  }

  lemma SitsAtEarlier(init: seq<Result<Lines>>, x: Result<Lines>, v: Lines, k: nat)
    requires k < |init| && SitsAt(init, v, k) && x.Success?
    ensures SitsAt(init + [x], v + x.value, k)
  {
    var outs := init + [x];
    PrefixOfLeft(init, [x], k);
    assert outs[k] == init[k];
    var a := Lengths(init[..k]);
    SliceOfConcat(v, x.value, a, a + |init[k].value|);
  }

  lemma SitsAtLast(init: seq<Result<Lines>>, x: Result<Lines>, v: Lines)
    requires |v| == Lengths(init) && x.Success?
    ensures SitsAt(init + [x], v + x.value, |init|)
  {
    PrefixOfLeft(init, [x], |init|);
    assert (init + [x])[..|init|] == init;
    SliceOfRight(v, x.value);
  }

  lemma PrefixOfLeft<T>(a: seq<T>, b: seq<T>, k: nat)
    requires k <= |a|
    ensures (a + b)[..k] == a[..k]
  {
  }

  lemma SliceOfRight<T>(a: seq<T>, b: seq<T>)
    ensures (a + b)[|a|..|a| + |b|] == b
  {
  }

  lemma SliceOfConcat<T>(a: seq<T>, b: seq<T>, i: nat, j: nat)
    requires i <= j <= |a|
    ensures (a + b)[i..j] == a[i..j]
  {
  }

  /** Once a prefix has failed, what follows it is never looked at. */
  lemma {:induction false} CollectPrefixFailure(outs: seq<Result<Lines>>, k: nat)
    requires k <= |outs|
    requires Collect(outs[..k]).Failure?
    ensures Collect(outs) == Collect(outs[..k])
    decreases |outs| - k
  {
    if k < |outs| {
      var n := |outs|;
      assert outs[..n - 1][..k] == outs[..k];
      CollectPrefixFailure(outs[..n - 1], k);
    } else {
      assert outs[..k] == outs;
    }
  }

  /** The outcomes of one background paired with each overlay in turn. */
  function Row(bill: Image, signs: seq<Image>, ds: seq<Draws>, table: Table, fmt: real -> string)
    : (r: seq<Result<Lines>>)
    requires |ds| == |signs|
    requires forall j | 0 <= j < |signs| :: ValidDraws(ds[j], bill, table)
    ensures |r| == |signs|
  {
    seq(|signs|, j requires 0 <= j < |signs| => SynthesizeLines(signs[j], bill, ds[j], table, fmt))
  }

  /** The outcomes of the whole cross product, background-major. */
  function PairOutcomes(bills: seq<Image>, signs: seq<Image>, draws: seq<seq<Draws>>, table: Table,
                        fmt: real -> string): (r: seq<Result<Lines>>)
    requires BatchDraws(bills, signs, draws, table)
    ensures |r| == |bills| * |signs|
    decreases |bills|
  {
    if |bills| == 0 then []
    else
      var n := |bills| - 1;
      assert BatchDraws(bills[..n], signs, draws[..n], table);
      PairOutcomes(bills[..n], signs, draws[..n], table, fmt) + Row(bills[n], signs, draws[n], table, fmt)
  }

  /** The dataset the batch builds: `Success` of all lines, or the first failure. */
  function Dataset(bills: seq<Image>, signs: seq<Image>, draws: seq<seq<Draws>>, table: Table,
                   fmt: real -> string): (r: Result<Lines>)
    requires BatchDraws(bills, signs, draws, table)
    // the batch produces its dataset exactly when every pairing fits and
    // every background is in the table
    ensures r.Success? <==> AllFit(bills, signs, draws, table)
  {
    var outs := PairOutcomes(bills, signs, draws, table, fmt);
    PairOutcomesSucceed(bills, signs, draws, table, fmt);
    var r := Collect(outs);
    assert r.Success? <==> AllSucceed(outs);
    r
  }

  /** The outcomes of the first `k` backgrounds are a prefix of the outcomes of all. */
  lemma {:induction false} PairOutcomesPrefix(bills: seq<Image>, signs: seq<Image>, draws: seq<seq<Draws>>,
                                              table: Table, fmt: real -> string, k: nat)
    requires BatchDraws(bills, signs, draws, table)
    requires k <= |bills|
    ensures BatchDraws(bills[..k], signs, draws[..k], table)
    ensures k * |signs| <= |bills| * |signs|
    ensures PairOutcomes(bills[..k], signs, draws[..k], table, fmt)
         == PairOutcomes(bills, signs, draws, table, fmt)[..k * |signs|]
    decreases |bills|
  {
    if k == |bills| {
      assert bills[..k] == bills && draws[..k] == draws;
    } else {
      var n := |bills| - 1;
      MulMonotone(k, n, |signs|);
      MulMonotone(n, |bills|, |signs|);
      assert BatchDraws(bills[..n], signs, draws[..n], table);
      PairOutcomesPrefix(bills[..n], signs, draws[..n], table, fmt, k);
      assert bills[..n][..k] == bills[..k] && draws[..n][..k] == draws[..k];
    }
  }

  lemma MulCancel(a: nat, b: nat, c: nat)
    requires a * c < b * c
    ensures a < b
  {
    assert (b - a) * c > 0;
  }

  lemma MulMonotone(a: nat, b: nat, c: nat)
    requires a <= b
    ensures a * c <= b * c
  {
  }

  /** Background-major order: the outcome at position `i * |signs| + j` is that of
      background `i` paired with overlay `j`. */
  lemma PairOutcomesOrder(bills: seq<Image>, signs: seq<Image>, draws: seq<seq<Draws>>,
                          table: Table, fmt: real -> string, i: nat, j: nat)
    requires BatchDraws(bills, signs, draws, table)
    requires i < |bills| && j < |signs|
    ensures i * |signs| + j < |bills| * |signs|
    ensures PairOutcomes(bills, signs, draws, table, fmt)[i * |signs| + j]
         == SynthesizeLines(signs[j], bills[i], draws[i][j], table, fmt)
  {
    var done := PairOutcomes(bills[..i], signs, draws[..i], table, fmt);
    var row := Row(bills[i], signs, draws[i], table, fmt);
    var whole := PairOutcomes(bills, signs, draws, table, fmt);
    PairOutcomesPrefixAt(bills, signs, draws, table, fmt, i, j + 1);
    assert |done| == i * |signs|;
    assert whole[..|done| + j + 1] == done + row[..j + 1];
    assert whole[|done| + j] == (done + row[..j + 1])[|done| + j] == row[j];
  }

  /** Appending one successful outcome appends its lines. */
  lemma CollectSnoc(outs: seq<Result<Lines>>, x: Result<Lines>)
    requires Collect(outs).Success? && x.Success?
    ensures Collect(outs + [x]) == Success(Collect(outs).value + x.value)
  {
    assert (outs + [x])[..|outs|] == outs;
  }

  /** Adding one background appends its row of outcomes. */
  lemma PairOutcomesSnoc(bills: seq<Image>, signs: seq<Image>, draws: seq<seq<Draws>>,
                         table: Table, fmt: real -> string, i: nat)
    requires BatchDraws(bills, signs, draws, table)
    requires i < |bills|
    ensures BatchDraws(bills[..i], signs, draws[..i], table)
    ensures BatchDraws(bills[..i + 1], signs, draws[..i + 1], table)
    ensures PairOutcomes(bills[..i + 1], signs, draws[..i + 1], table, fmt)
         == PairOutcomes(bills[..i], signs, draws[..i], table, fmt) + Row(bills[i], signs, draws[i], table, fmt)
  {
    PairOutcomesPrefix(bills, signs, draws, table, fmt, i);
    PairOutcomesPrefix(bills, signs, draws, table, fmt, i + 1);
    assert bills[..i + 1][..i] == bills[..i] && draws[..i + 1][..i] == draws[..i];
  }

  /** One more successful pairing of the current row extends the dataset by its lines. */
  lemma CollectStep(done: seq<Result<Lines>>, row: seq<Result<Lines>>, j: nat, dataset: Lines)
    requires j < |row| && row[j].Success?
    requires Collect(done + row[..j]) == Success(dataset)
    ensures Collect(done + row[..j + 1]) == Success(dataset + row[j].value)
  {
    PrefixSnoc(done, row, j);
    CollectSnoc(done + row[..j], row[j]);
  }

  /** Appending a failing outcome to a successful prefix fails with its error. */
  lemma CollectSnocFailure(outs: seq<Result<Lines>>, x: Result<Lines>)
    requires Collect(outs).Success? && x.Failure?
    ensures Collect(outs + [x]) == Failure(x.error)
  {
    assert (outs + [x])[..|outs|] == outs;
  }

  lemma PrefixOfConcat<T>(x: seq<T>, y: seq<T>, k: nat)
    requires k <= |y|
    ensures (x + y)[..|x| + k] == x + y[..k]
  {
  }

  lemma PrefixSnoc<T>(x: seq<T>, y: seq<T>, k: nat)
    requires k < |y|
    ensures x + y[..k + 1] == (x + y[..k]) + [y[k]]
  {
  }

  lemma PrefixOfPrefix<T>(s: seq<T>, m: nat, k: nat)
    requires k <= m <= |s|
    ensures s[..m][..k] == s[..k]
  {
  }

  /** The outcomes up to overlay `j` of background `i` are a prefix of all outcomes. */
  lemma PairOutcomesPrefixAt(bills: seq<Image>, signs: seq<Image>, draws: seq<seq<Draws>>,
                             table: Table, fmt: real -> string, i: nat, j: nat)
    requires BatchDraws(bills, signs, draws, table)
    requires i < |bills| && j <= |signs|
    ensures BatchDraws(bills[..i], signs, draws[..i], table)
    ensures var done := PairOutcomes(bills[..i], signs, draws[..i], table, fmt);
      var whole := PairOutcomes(bills, signs, draws, table, fmt);
      && |done| + j <= |whole|
      && whole[..|done| + j] == done + Row(bills[i], signs, draws[i], table, fmt)[..j]
  {
    var done := PairOutcomes(bills[..i], signs, draws[..i], table, fmt);
    var row := Row(bills[i], signs, draws[i], table, fmt);
    var whole := PairOutcomes(bills, signs, draws, table, fmt);
    PairOutcomesSnoc(bills, signs, draws, table, fmt, i);
    PairOutcomesPrefix(bills, signs, draws, table, fmt, i + 1);
    var m := (i + 1) * |signs|;
    assert whole[..m] == done + row;
    assert m == |done| + |signs|;
    PrefixOfPrefix(whole, m, |done| + j);
    PrefixOfConcat(done, row, j);
  }

  /** A failing pairing, reached after all earlier pairings succeeded, is the
      batch's failure. */
  lemma AbortAt(bills: seq<Image>, signs: seq<Image>, draws: seq<seq<Draws>>,
                table: Table, fmt: real -> string, i: nat, j: nat)
    requires BatchDraws(bills, signs, draws, table)
    requires i < |bills| && j < |signs|
    requires BatchDraws(bills[..i], signs, draws[..i], table)
    requires var done := PairOutcomes(bills[..i], signs, draws[..i], table, fmt);
      Collect(done + Row(bills[i], signs, draws[i], table, fmt)[..j]).Success?
    requires SynthesizeLines(signs[j], bills[i], draws[i][j], table, fmt).Failure?
    ensures Collect(PairOutcomes(bills, signs, draws, table, fmt))
         == Failure(SynthesizeLines(signs[j], bills[i], draws[i][j], table, fmt).error)
  {
    var done := PairOutcomes(bills[..i], signs, draws[..i], table, fmt);
    var row := Row(bills[i], signs, draws[i], table, fmt);
    var whole := PairOutcomes(bills, signs, draws, table, fmt);
    var bad := SynthesizeLines(signs[j], bills[i], draws[i][j], table, fmt);
    assert row[j] == bad;
    PairOutcomesPrefixAt(bills, signs, draws, table, fmt, i, j + 1);
    var k := |done| + j + 1;
    assert whole[..k] == done + row[..j + 1];
    PrefixSnoc(done, row, j);
    CollectSnocFailure(done + row[..j], bad);
    assert Collect(whole[..k]) == Failure(bad.error);
    CollectPrefixFailure(whole, k);
  }

  /** The batch loop of the source: for each background, for each overlay,
      append the pairing's lines; the first failing pairing aborts. */
  method BuildDataset(bills: seq<Image>, signs: seq<Image>, draws: seq<seq<Draws>>, table: Table,
                      fmt: real -> string) returns (r: Result<Lines>)
    requires BatchDraws(bills, signs, draws, table)
    // the reference dataset of `Dataset`
    ensures r == Collect(PairOutcomes(bills, signs, draws, table, fmt))
  {
    var dataset: Lines := [];
    var i := 0;
    while i < |bills|
      invariant 0 <= i <= |bills|
      invariant BatchDraws(bills[..i], signs, draws[..i], table)
      invariant Collect(PairOutcomes(bills[..i], signs, draws[..i], table, fmt)) == Success(dataset)
    {
      var step := AppendRow(bills, signs, draws, table, fmt, i, dataset);
      if step.Failure? {
        return step;
      }
      RowDone(bills, signs, draws, table, fmt, i, step.value);
      dataset := step.value;
      i := i + 1;
    }
    assert bills[..i] == bills && draws[..i] == draws;
    return Success(dataset);
  }

  /** The inner loop for background `i`: appends the lines of its pairing with
      each overlay to `dataset`, the lines of the backgrounds before it. */
  method AppendRow(bills: seq<Image>, signs: seq<Image>, draws: seq<seq<Draws>>, table: Table,
                   fmt: real -> string, i: nat, dataset: Lines) returns (r: Result<Lines>)
    requires BatchDraws(bills, signs, draws, table)
    requires i < |bills|
    requires BatchDraws(bills[..i], signs, draws[..i], table)
    requires Collect(PairOutcomes(bills[..i], signs, draws[..i], table, fmt)) == Success(dataset)
    ensures r.Success? ==>
      Collect(PairOutcomes(bills[..i], signs, draws[..i], table, fmt)
              + Row(bills[i], signs, draws[i], table, fmt)[..|signs|]) == r
    ensures r.Failure? ==> r == Collect(PairOutcomes(bills, signs, draws, table, fmt))
  {
    var done := PairOutcomes(bills[..i], signs, draws[..i], table, fmt);
    var row := Row(bills[i], signs, draws[i], table, fmt);
    var lines := dataset;
    var j := 0;
    assert done + row[..0] == done;
    while j < |signs|
      invariant 0 <= j <= |signs|
      invariant Collect(done + row[..j]) == Success(lines)
    {
      var pair := SynthesizeLines(signs[j], bills[i], draws[i][j], table, fmt);
      if pair.Failure? {
        AbortAt(bills, signs, draws, table, fmt, i, j);
        return Failure(pair.error);
      }
      CollectStep(done, row, j, lines);
      lines := lines + pair.value;
      j := j + 1;
    }
    return Success(lines);
  }

  /** Finishing the row of background `i` finishes the first `i + 1` backgrounds. */
  lemma RowDone(bills: seq<Image>, signs: seq<Image>, draws: seq<seq<Draws>>, table: Table,
                fmt: real -> string, i: nat, dataset: Lines)
    requires BatchDraws(bills, signs, draws, table)
    requires i < |bills|
    requires BatchDraws(bills[..i], signs, draws[..i], table)
    requires Collect(PairOutcomes(bills[..i], signs, draws[..i], table, fmt)
                     + Row(bills[i], signs, draws[i], table, fmt)[..|signs|]) == Success(dataset)
    ensures BatchDraws(bills[..i + 1], signs, draws[..i + 1], table)
    ensures Collect(PairOutcomes(bills[..i + 1], signs, draws[..i + 1], table, fmt)) == Success(dataset)
  {
    var row := Row(bills[i], signs, draws[i], table, fmt);
    assert row[..|signs|] == row;
    PairOutcomesSnoc(bills, signs, draws, table, fmt, i);
  }

  /** Every pairing of the cross product succeeds exactly when every overlay
      fits its background and every background is in the table. */
  lemma PairOutcomesSucceed(bills: seq<Image>, signs: seq<Image>, draws: seq<seq<Draws>>,
                            table: Table, fmt: real -> string)
    requires BatchDraws(bills, signs, draws, table)
    ensures AllSucceed(PairOutcomes(bills, signs, draws, table, fmt)) <==> AllFit(bills, signs, draws, table)
  {
    if AllSucceed(PairOutcomes(bills, signs, draws, table, fmt)) {
      AllPairsFit(bills, signs, draws, table, fmt);
    } else {
      SomePairFails(bills, signs, draws, table, fmt);
    }
  }

  lemma AllPairsFit(bills: seq<Image>, signs: seq<Image>, draws: seq<seq<Draws>>,
                    table: Table, fmt: real -> string)
    requires BatchDraws(bills, signs, draws, table)
    requires AllSucceed(PairOutcomes(bills, signs, draws, table, fmt))
    ensures AllFit(bills, signs, draws, table)
  {
    forall i, j | 0 <= i < |bills| && 0 <= j < |signs|
      ensures Fits(draws[i][j], bills[i]) && bills[i].name in table
    {
      PairSucceeds(bills, signs, draws, table, fmt, i, j);
    }
  }

  lemma SomePairFails(bills: seq<Image>, signs: seq<Image>, draws: seq<seq<Draws>>,
                      table: Table, fmt: real -> string)
    requires BatchDraws(bills, signs, draws, table)
    requires !AllSucceed(PairOutcomes(bills, signs, draws, table, fmt))
    ensures !AllFit(bills, signs, draws, table)
  {
    var whole := PairOutcomes(bills, signs, draws, table, fmt);
    var k :| 0 <= k < |whole| && whole[k].Failure?;
    var i, j := Position(k, |signs|, |bills|);
    PairOutcomesOrder(bills, signs, draws, table, fmt, i, j);
    var pair := SynthesizeLines(signs[j], bills[i], draws[i][j], table, fmt);
    assert whole[k] == pair;
    assert pair.Failure?;
    assert !(Fits(draws[i][j], bills[i]) && bills[i].name in table);
  }

  lemma PairSucceeds(bills: seq<Image>, signs: seq<Image>, draws: seq<seq<Draws>>,
                     table: Table, fmt: real -> string, i: nat, j: nat)
    requires BatchDraws(bills, signs, draws, table)
    requires i < |bills| && j < |signs|
    requires AllSucceed(PairOutcomes(bills, signs, draws, table, fmt))
    ensures Fits(draws[i][j], bills[i]) && bills[i].name in table
  {
    var whole := PairOutcomes(bills, signs, draws, table, fmt);
    PairOutcomesOrder(bills, signs, draws, table, fmt, i, j);
    MulMonotone(0, i, |signs|);
    SucceedsAt(whole, i * |signs| + j);
    assert SynthesizeLines(signs[j], bills[i], draws[i][j], table, fmt).Success?;
  }

  lemma SucceedsAt(outs: seq<Result<Lines>>, k: nat)
    requires AllSucceed(outs) && k < |outs|
    ensures outs[k].Success?
  {
  }

  /** Position `k` of an `m`-by-`n` grid laid out row by row. */
  lemma Position(k: nat, n: nat, m: nat) returns (i: nat, j: nat)
    requires k < m * n
    ensures i < m && j < n && k == i * n + j
  {
    i := k / n;
    j := k % n;
    MulCancel(i, m, n);
  }

  /** Lines each background contributes per overlay: the placed box and its
      known boxes. */
  function BillLines(bills: seq<Image>, table: Table): nat {
    if |bills| == 0 then 0
    else
      var b := bills[|bills| - 1];
      BillLines(bills[..|bills| - 1], table) + (if b.name in table then 1 + |table[b.name]| else 1)
  }

  lemma {:induction false} LengthsAppend(a: seq<Result<Lines>>, b: seq<Result<Lines>>)
    ensures Lengths(a + b) == Lengths(a) + Lengths(b)
    decreases |b|
  {
    if |b| == 0 {
      assert a + b == a;
    } else {
      assert (a + b)[..|a + b| - 1] == a + b[..|b| - 1];
      LengthsAppend(a, b[..|b| - 1]);
    }
  }

  lemma {:induction false} LengthsUniform(outs: seq<Result<Lines>>, c: nat)
    requires forall k | 0 <= k < |outs| :: outs[k].Success? && |outs[k].value| == c
    ensures Lengths(outs) == |outs| * c
    decreases |outs|
  {
    if |outs| > 0 {
      LengthsUniform(outs[..|outs| - 1], c);
    }
  }

  lemma AllSucceedAppend(a: seq<Result<Lines>>, b: seq<Result<Lines>>)
    ensures AllSucceed(a + b) <==> AllSucceed(a) && AllSucceed(b)
  {
    if AllSucceed(a + b) {
      assert forall k | 0 <= k < |a| :: a[k] == (a + b)[k];
      assert forall k | 0 <= k < |b| :: b[k] == (a + b)[|a| + k];
    }
  }

  /** A row that succeeds carries one line per record of each of its pairings. */
  lemma RowLength(bill: Image, signs: seq<Image>, ds: seq<Draws>, table: Table, fmt: real -> string)
    requires |ds| == |signs|
    requires forall j | 0 <= j < |signs| :: ValidDraws(ds[j], bill, table)
    requires AllSucceed(Row(bill, signs, ds, table, fmt))
    ensures bill.name in table || |signs| == 0
    ensures Lengths(Row(bill, signs, ds, table, fmt))
         == |signs| * (if bill.name in table then 1 + |table[bill.name]| else 1)
  {
    var row := Row(bill, signs, ds, table, fmt);
    var c := if bill.name in table then 1 + |table[bill.name]| else 1;
    assert forall k | 0 <= k < |row| :: row[k] == SynthesizeLines(signs[k], bill, ds[k], table, fmt);
    LengthsUniform(row, c);
  }

  lemma PairOutcomesLast(bills: seq<Image>, signs: seq<Image>, draws: seq<seq<Draws>>,
                         table: Table, fmt: real -> string)
    requires BatchDraws(bills, signs, draws, table)
    requires |bills| > 0
    ensures BatchDraws(bills[..|bills| - 1], signs, draws[..|bills| - 1], table)
    ensures PairOutcomes(bills, signs, draws, table, fmt)
         == PairOutcomes(bills[..|bills| - 1], signs, draws[..|bills| - 1], table, fmt)
          + Row(bills[|bills| - 1], signs, draws[|bills| - 1], table, fmt)
  {
  }

  lemma {:induction false} PairOutcomesLength(bills: seq<Image>, signs: seq<Image>, draws: seq<seq<Draws>>,
                                              table: Table, fmt: real -> string)
    requires BatchDraws(bills, signs, draws, table)
    requires AllSucceed(PairOutcomes(bills, signs, draws, table, fmt))
    ensures Lengths(PairOutcomes(bills, signs, draws, table, fmt)) == |signs| * BillLines(bills, table)
    decreases |bills|
  {
    if |bills| > 0 {
      var n := |bills| - 1;
      var done := PairOutcomes(bills[..n], signs, draws[..n], table, fmt);
      var row := Row(bills[n], signs, draws[n], table, fmt);
      PairOutcomesLast(bills, signs, draws, table, fmt);
      AllSucceedAppend(done, row);
      PairOutcomesLength(bills[..n], signs, draws[..n], table, fmt);
      LengthsAppend(done, row);
      RowLength(bills[n], signs, draws[n], table, fmt);
      var c := if bills[n].name in table then 1 + |table[bills[n].name]| else 1;
      assert BillLines(bills, table) == BillLines(bills[..n], table) + c;
      LengthStep(Lengths(done + row), Lengths(done), Lengths(row), |signs|,
                 BillLines(bills[..n], table), c, BillLines(bills, table));
    }
  }

  lemma LengthStep(total: int, prev: int, rowLen: int, s: int, before: int, c: int, after: int)
    requires total == prev + rowLen && prev == s * before && rowLen == s * c && after == before + c
    ensures total == s * after
  {
  }

  /** Record count: a successful dataset has, per overlay, one line for the
      placed box plus one per known box of each background. */
  lemma DatasetLength(bills: seq<Image>, signs: seq<Image>, draws: seq<seq<Draws>>,
                      table: Table, fmt: real -> string)
    requires BatchDraws(bills, signs, draws, table)
    requires Dataset(bills, signs, draws, table, fmt).Success?
    ensures |Dataset(bills, signs, draws, table, fmt).value| == |signs| * BillLines(bills, table)
  {
    PairOutcomesLength(bills, signs, draws, table, fmt);
  }
}

=== FILE: boxes.dfy ===
/** Image sizes and bounding boxes, in pixels and normalised
    (synthesize.py:54-68, 93-94, 100-103).

    The source writes a box as `[[left, top], [right, bottom]]`; here it is a
    four-field record. Pixel boxes hold integers, and the boxes that have been
    jittered or normalised hold reals, the exact stand-in for Python floats.
 */
module Boxes {

  /** A pixel dimension as reported by the image probe: always positive. */
  type Dim = n: int | n > 0 witness 1

  datatype Size = Size(w: Dim, h: Dim)

  /** A box in integer pixel coordinates. */
  datatype PixelBox = PixelBox(left: int, top: int, right: int, bottom: int)

  /** A box in real coordinates (pixels after jitter, or fractions after normalisation). */
  datatype Box = Box(left: real, top: real, right: real, bottom: real)

  function ToReal(p: PixelBox): Box {
    Box(p.left as real, p.top as real, p.right as real, p.bottom as real)
  }

  /** Both corners of `b` lie in `[0, w] x [0, h]`. */
  predicate Inside(b: Box, w: real, h: real) {
    && 0.0 <= b.left <= w && 0.0 <= b.right <= w
    && 0.0 <= b.top <= h && 0.0 <= b.bottom <= h
  }

  /** Divides the horizontal coordinates by the width and the vertical ones by
      the height (synthesize.py:62-68). */
  function Normalize(b: Box, w: Dim, h: Dim): (n: Box)
    ensures n.left * w as real == b.left && n.right * w as real == b.right
    ensures n.top * h as real == b.top && n.bottom * h as real == b.bottom
  {
    Box(b.left / w as real, b.top / h as real, b.right / w as real, b.bottom / h as real)
  }

  /** Reference inverse of `Normalize`: scales a fractional box back to pixels. */
  function Denormalize(n: Box, w: Dim, h: Dim): Box {
    Box(n.left * w as real, n.top * h as real, n.right * w as real, n.bottom * h as real)
  }

  lemma NormalizeRoundTrip(b: Box, w: Dim, h: Dim)
    ensures Denormalize(Normalize(b, w, h), w, h) == b
    ensures Normalize(Denormalize(b, w, h), w, h) == b
  {
  }

  /** A pixel box lies inside the image exactly when its normalised box lies
      inside the unit square. */
  lemma NormalizeInsideUnit(b: Box, w: Dim, h: Dim)
    ensures Inside(b, w as real, h as real) <==> Inside(Normalize(b, w, h), 1.0, 1.0)
  {
    var n := Normalize(b, w, h);
    DivBounds(b.left, w as real);
    DivBounds(b.right, w as real);
    DivBounds(b.top, h as real);
    DivBounds(b.bottom, h as real);
  }

  lemma DivBounds(x: real, d: real)
    requires d > 0.0
    ensures 0.0 <= x <= d <==> 0.0 <= x / d <= 1.0
  {
    var q := x / d;
    assert x == q * d;
    if 0.0 <= q <= 1.0 {
      assert 0.0 <= q * d;
      assert q * d <= 1.0 * d;
    }
  }

  /** `n` lies exactly halfway between two integers. */
  predicate Tie(n: real) {
    n - n.Floor as real == 0.5
  }

  /** The integer nearest to `n`, ties to the even one: Python's rounding rule. */
  function RoundHalfEven(n: real): (k: int)
    ensures k == n.Floor || k == n.Floor + 1
    ensures -0.5 <= k as real - n <= 0.5
    ensures Tie(n) ==> k % 2 == 0
  {
    var f := n.Floor;
    var frac := n - f as real;
    if frac < 0.5 then f
    else if frac > 0.5 then f + 1
    else if f % 2 == 0 then f else f + 1
  }

  /** The contract of `RoundHalfEven` has one solution: any integer within one
      half of `n` that is even on a tie is the rounded value. */
  lemma RoundHalfEvenUnique(n: real, k: int)
    requires -0.5 <= k as real - n <= 0.5
    requires Tie(n) ==> k % 2 == 0
    ensures k == RoundHalfEven(n)
  {
    var f := n.Floor;
    var frac := n - f as real;
    assert f as real <= n < f as real + 1.0;
    assert f <= k <= f + 1;
    if frac < 0.5 {
      assert k as real <= n + 0.5 < f as real + 1.0;
    } else if frac > 0.5 {
      assert k as real >= n - 0.5 > f as real;
    }
  }

  /** `x` is a multiple of 1/1000, i.e. has at most three decimals. */
  predicate OnGrid(x: real) {
    (x * 1000.0).Floor as real == x * 1000.0
  }

  /** `r` is what `round(x, 3)` gives on the exact real `x`: on the 1/1000
      grid, at most half a step from `x`, and on a tie the even multiple. */
  predicate Rounded3(x: real, r: real) {
    && OnGrid(r)
    && -0.0005 <= r - x <= 0.0005
    && (Tie(x * 1000.0) ==> (r * 1000.0).Floor % 2 == 0)
  }

  /** `round(x, 3)` on an exact real: to the nearest multiple of 1/1000, ties to
      the even multiple (synthesize.py:100-103). */
  function Round3(x: real): (r: real)
    ensures Rounded3(x, r)
    ensures 0.0 <= x ==> 0.0 <= r
    ensures x <= 1.0 ==> r <= 1.0
  {
    var n := x * 1000.0;
    var k := RoundHalfEven(n);
    var r := k as real / 1000.0;
    assert r * 1000.0 == k as real;
    assert r - x == (k as real - n) / 1000.0;
    r
  }

  /** `Rounded3` pins the result: `Round3` is the only value meeting it. */
  lemma Rounded3Unique(x: real, r: real)
    requires Rounded3(x, r)
    ensures r == Round3(x)
  {
    var k := (r * 1000.0).Floor;
    assert k as real == r * 1000.0;
    assert -0.5 <= k as real - x * 1000.0 <= 0.5;
    RoundHalfEvenUnique(x * 1000.0, k);
  }

  /** Each coordinate rounded to three decimals (synthesize.py:100-103). */
  function RoundBox(b: Box): (r: Box)
    ensures Rounded3(b.left, r.left) && Rounded3(b.top, r.top)
    ensures Rounded3(b.right, r.right) && Rounded3(b.bottom, r.bottom)
    ensures Inside(b, 1.0, 1.0) ==> Inside(r, 1.0, 1.0)
  {
    Box(Round3(b.left), Round3(b.top), Round3(b.right), Round3(b.bottom))
  }

  /** Rounding is idempotent: a value already on the 1/1000 grid is left alone. */
  lemma Round3Idempotent(x: real)
    ensures Round3(Round3(x)) == Round3(x)
  {
    var r := Round3(x);
    var n := r * 1000.0;
    assert n.Floor as real == n;
    assert RoundHalfEven(n) == n.Floor;
  }
}

=== FILE: config.dfy ===
/** The synthesizer's configuration constants (synthesize.py:8-17). */
module Config {

  /** Directory, relative to the storage prefix, that receives composites. */
  const OutDir: string := "synthesized_2"

  /** Prefix under which the composites are uploaded. */
  const CloudStoragePrefix: string := "gs://phqb-automl-data/img/"

  /** Half-width, in degrees, of the rotation draw. */
  const FuzzyDeg: int := 20

  /** Inclusive bounds of the resized overlay width, in pixels. */
  const SignWidthMin: int := 150
  const SignWidthMax: int := 200

  /** Half-width, in pixels, of the jitter applied to each known-box edge. */
  const SignWidthFuzzy: int := 10
}

=== FILE: fuzz.dfy ===
/** Jitter of the known boxes (synthesize.py:54-60, 72).

    Each edge of a known box moves by its own draw `2 * r * 10 - 10` with `r`
    in `[0, 1)`; nothing re-orders the edges afterwards.
 */
module Fuzz {
  import opened Config
  import opened Boxes

  /** The four `random()` draws for one box, in the order the edges are moved. */
  datatype Jitter = Jitter(rl: real, rt: real, rr: real, rb: real)

  predicate Unit(r: real) {
    0.0 <= r < 1.0
  }

  predicate ValidJitter(j: Jitter) {
    Unit(j.rl) && Unit(j.rt) && Unit(j.rr) && Unit(j.rb)
  }

  /** The pixel shift produced by one draw. */
  function Delta(r: real): (d: real)
    requires Unit(r)
    ensures -SignWidthFuzzy as real <= d < SignWidthFuzzy as real
    ensures r == (d + SignWidthFuzzy as real) / (2.0 * SignWidthFuzzy as real)
  {
    2.0 * r * SignWidthFuzzy as real - SignWidthFuzzy as real
  }

  /** `x` differs from the integer `p` by a shift in `[-10, 10)`. */
  predicate Near(p: int, x: real) {
    -SignWidthFuzzy as real <= x - p as real < SignWidthFuzzy as real
  }

  predicate Jittered(p: PixelBox, b: Box) {
    Near(p.left, b.left) && Near(p.top, b.top) && Near(p.right, b.right) && Near(p.bottom, b.bottom)
  }

  /** `fuzzy_dim`: each edge shifted by its own draw. */
  function FuzzyDim(p: PixelBox, j: Jitter): (b: Box)
    requires ValidJitter(j)
    ensures Jittered(p, b)
  {
    Box(p.left as real + Delta(j.rl), p.top as real + Delta(j.rt),
        p.right as real + Delta(j.rr), p.bottom as real + Delta(j.rb))
  }

  /** The draw that shifts by `d`. */
  function DrawFor(d: real): real {
    (d + SignWidthFuzzy as real) / (2.0 * SignWidthFuzzy as real)
  }

  /** Conversely, every box within the jitter bound of `p` is the outcome of
      some four draws: the bound of `FuzzyDim` is tight. */
  lemma FuzzyDimReachesEveryNearBox(p: PixelBox, b: Box)
    requires Jittered(p, b)
    ensures var j := Jitter(DrawFor(b.left - p.left as real), DrawFor(b.top - p.top as real),
                            DrawFor(b.right - p.right as real), DrawFor(b.bottom - p.bottom as real));
      ValidJitter(j) && FuzzyDim(p, j) == b
  {
  }

  /** A box at least twice the jitter bound wide and high keeps its orientation. */
  lemma FuzzKeepsOrientation(p: PixelBox, j: Jitter)
    requires ValidJitter(j)
    requires p.left + 2 * SignWidthFuzzy <= p.right && p.top + 2 * SignWidthFuzzy <= p.bottom
    ensures var b := FuzzyDim(p, j); b.left < b.right && b.top < b.bottom
  {
    var b := FuzzyDim(p, j);
    assert Jittered(p, b);
  }

  /** A box narrower than 19 pixels can be turned inside out: independent
      per-edge jitter does not preserve `left < right`. */
  lemma FuzzCanInvert(p: PixelBox)
    requires p.right - p.left < 19
    ensures var b := FuzzyDim(p, Jitter(0.95, 0.5, 0.0, 0.5)); b.right < b.left
  {
  }

  /** The fuzzed and normalised copies of a background's known boxes, one per
      box and in table order (synthesize.py:72). */
  function FuzzyBoxes(known: seq<PixelBox>, jitters: seq<Jitter>, bill: Size): (r: seq<Box>)
    requires |jitters| == |known|
    requires forall i | 0 <= i < |jitters| :: ValidJitter(jitters[i])
    ensures |r| == |known|
    // box `i` is known box `i` moved by its own four draws
    ensures forall i | 0 <= i < |r| :: Denormalize(r[i], bill.w, bill.h) == FuzzyDim(known[i], jitters[i])
    ensures forall i | 0 <= i < |r| :: Jittered(known[i], Denormalize(r[i], bill.w, bill.h))
  {
    var r := seq(|known|, i requires 0 <= i < |known| => Normalize(FuzzyDim(known[i], jitters[i]), bill.w, bill.h));
    assert forall i | 0 <= i < |r| :: Denormalize(r[i], bill.w, bill.h) == FuzzyDim(known[i], jitters[i]) by {
      forall i | 0 <= i < |r|
        ensures Denormalize(r[i], bill.w, bill.h) == FuzzyDim(known[i], jitters[i])
      {
        NormalizeRoundTrip(FuzzyDim(known[i], jitters[i]), bill.w, bill.h);
      }
    }
    r
  }
}

=== FILE: geometry.dfy ===
/** Resize, rotation and placement of the overlay (synthesize.py:84-94).

    Every random draw is a parameter: a `randint(lo, hi)` draw is an integer
    the caller promises lies in `[lo, hi]` whenever that range is non-empty, and
    a `random()` draw is a real the caller promises lies in `[0, 1)`.
 */
module Geometry {
  import opened Config
  import opened Boxes
  import opened Outcomes

  /** Python's `int(x)` on a float: truncation toward zero. */
  function Truncate(x: real): (t: int)
    ensures 0.0 <= x ==> 0 <= t && t as real <= x < t as real + 1.0
    ensures x <= 0.0 ==> t <= 0 && t as real - 1.0 < x <= t as real
  {
    if x >= 0.0 then x.Floor else -((-x).Floor)
  }

  /** `randint(lo, hi)`: the draw when the range is non-empty, otherwise the
      `ValueError` that Python raises, reported as a fit failure on `axis`. */
  function RandInt(lo: int, hi: int, draw: int, axis: Axis): (r: Result<int>)
    requires lo <= hi ==> lo <= draw <= hi
    ensures r.Success? <==> lo <= hi
    ensures r.Success? ==> lo <= r.value <= hi && r.value == draw
    ensures r.Failure? ==> r.error == FitError(axis)
  {
    if hi < lo then Failure(FitError(axis)) else Success(draw)
  }

  /** The resized overlay height: `int(h * tw / w)` for the natural size
      `w x h` and the drawn target width `tw` (synthesize.py:85). */
  function ResizeHeight(natural: Size, tw: int): (th: int)
    requires SignWidthMin <= tw <= SignWidthMax
    ensures 0 <= th
    ensures th * natural.w <= natural.h * tw < (th + 1) * natural.w
  {
    var q := (natural.h * tw) as real / natural.w as real;
    DivNonnegative((natural.h * tw) as real, natural.w as real);
    var th := Truncate(q);
    FloorBracket(natural.h * tw, natural.w, th);
    th
  }

  /** If `t` is the floor of `a / d` over the reals, then `t * d <= a < (t + 1) * d`. */
  lemma FloorBracket(a: int, d: int, t: int)
    requires d > 0
    requires t as real <= a as real / d as real < t as real + 1.0
    ensures t * d <= a < (t + 1) * d
  {
    ScaleDivLower(a as real, d as real, t as real);
    ScaleDivUpper(a as real, d as real, (t + 1) as real);
    CastMul(t, d);
    CastMul(t + 1, d);
    RealToInt(t * d, a);
    RealToIntStrict(a, (t + 1) * d);
  }

  lemma ScaleDivLower(x: real, d: real, t: real)
    requires d > 0.0 && t <= x / d
    ensures t * d <= x
  {
    DivMul(x, d);
    ScaleMonotone(t, x / d, d);
  }

  lemma ScaleDivUpper(x: real, d: real, u: real)
    requires d > 0.0 && x / d < u
    ensures x < u * d
  {
    DivMul(x, d);
    ScaleStrict(x / d, u, d);
  }

  lemma RealToInt(x: int, y: int)
    requires x as real <= y as real
    ensures x <= y
  {
  }

  lemma RealToIntStrict(x: int, y: int)
    requires x as real < y as real
    ensures x < y
  {
  }

  lemma DivMul(x: real, y: real)
    requires y != 0.0
    ensures (x / y) * y == x
  {
  }

  lemma CastMul(x: int, y: int)
    ensures (x * y) as real == x as real * y as real
  {
  }

  lemma ScaleMonotone(x: real, y: real, k: real)
    requires k > 0.0 && x <= y
    ensures x * k <= y * k
  {
  }

  lemma ScaleStrict(x: real, y: real, k: real)
    requires k > 0.0 && x < y
    ensures x * k < y * k
  {
  }

  /** Cancelling a positive factor from a strict inequality. */
  lemma CancelStrict(x: real, y: real, k: real)
    requires k > 0.0 && x * k < y * k
    ensures x < y
  {
    assert (y - x) * k > 0.0;
  }

  /** The resized height is the integer quotient `h * tw / w`: there is only one
      integer the bracket of `ResizeHeight` admits. */
  lemma ResizeHeightIsQuotient(natural: Size, tw: int)
    requires SignWidthMin <= tw <= SignWidthMax
    ensures ResizeHeight(natural, tw) == natural.h * tw / natural.w
  {
    var th := ResizeHeight(natural, tw);
    var q := natural.h * tw / natural.w;
    BracketUnique(natural.h * tw, natural.w, th, q);
  }

  lemma BracketUnique(a: int, d: int, s: int, t: int)
    requires d > 0
    requires s * d <= a < (s + 1) * d
    requires t * d <= a < (t + 1) * d
    ensures s == t
  {
    CancelStrict(s as real, (t + 1) as real, d as real);
    CancelStrict(t as real, (s + 1) as real, d as real);
  }

  /** Aspect preservation: the resized height is within one pixel below the
      height that would keep the natural aspect ratio exactly. */
  lemma ResizeKeepsAspect(natural: Size, tw: int)
    requires SignWidthMin <= tw <= SignWidthMax
    ensures var th := ResizeHeight(natural, tw);
      th as real <= (natural.h * tw) as real / natural.w as real < th as real + 1.0
  {
    var q := (natural.h * tw) as real / natural.w as real;
    DivNonnegative((natural.h * tw) as real, natural.w as real);
    var th := Truncate(q);
    assert th as real <= q < th as real + 1.0;
    assert ResizeHeight(natural, tw) == th;
  }

  lemma DivNonnegative(x: real, d: real)
    requires 0.0 <= x && 0.0 < d
    ensures 0.0 <= x / d
  {
    DivMul(x, d);
  }

  /** The rotation angle `int(2 * r * 20 - 20)` for a draw `r` in `[0, 1)`
      (synthesize.py:86). Truncation toward zero makes the range `[-20, 19]`,
      with `-20` reached only by the draw `0`. */
  function RotationAngle(r: real): (deg: int)
    requires 0.0 <= r < 1.0
    ensures -FuzzyDeg <= deg < FuzzyDeg
    ensures deg == -FuzzyDeg <==> r == 0.0
  {
    Truncate(2.0 * r * FuzzyDeg as real - FuzzyDeg as real)
  }

  /** Truncation toward zero folds the interval `(-1, 1)` onto angle `0`, so the
      draws giving no rotation form a band twice as wide as any other angle's. */
  lemma RotationZeroBand(r: real)
    requires 0.0 <= r < 1.0
    ensures RotationAngle(r) == 0 <==> 0.475 < r < 0.525
  {
    var x := 2.0 * r * FuzzyDeg as real - FuzzyDeg as real;
    assert x == 40.0 * r - 20.0;
  }

  /** The placed overlay box: a left offset drawn from `[0, W - w]`, a top offset
      drawn from `[0, H - h]`, where `W x H` is the background and `w x h` the
      overlay as measured after rotation (synthesize.py:91-94). */
  function Place(bill: Size, rotated: Size, drawLeft: int, drawTop: int): (r: Result<PixelBox>)
    requires rotated.w <= bill.w ==> 0 <= drawLeft <= bill.w - rotated.w
    requires rotated.h <= bill.h ==> 0 <= drawTop <= bill.h - rotated.h
    ensures r.Success? <==> rotated.w <= bill.w && rotated.h <= bill.h
    ensures r.Failure? ==> r.error == FitError(if rotated.w > bill.w then Horizontal else Vertical)
    ensures r.Success? ==>
      && 0 <= r.value.left && r.value.right <= bill.w
      && 0 <= r.value.top && r.value.bottom <= bill.h
      && r.value.right - r.value.left == rotated.w
      && r.value.bottom - r.value.top == rotated.h
  {
    var left :- RandInt(0, bill.w - rotated.w, drawLeft, Horizontal);
    var top :- RandInt(0, bill.h - rotated.h, drawTop, Vertical);
    Success(PixelBox(left, top, left + rotated.w, top + rotated.h))
  }

  /** Every position at which the rotated overlay fits is produced by some pair
      of draws: the draw ranges are exactly the feasible offsets. */
  lemma PlaceReachesEveryFit(bill: Size, rotated: Size, p: PixelBox)
    requires 0 <= p.left && p.right <= bill.w && 0 <= p.top && p.bottom <= bill.h
    requires p.right - p.left == rotated.w && p.bottom - p.top == rotated.h
    ensures Place(bill, rotated, p.left, p.top) == Success(p)
  {
  }
}

=== FILE: outcomes.dfy ===
/** Failure-carrying results for the synthesis pipeline.

    The source raises an exception on two paths that this model keeps: an empty
    `randint` range when the rotated overlay does not fit inside the background,
    and a missing key when a background has no entry in the known-annotation table.
 */
module Outcomes {

  /** Which `randint` call saw an empty range: the horizontal one runs first. */
  datatype Axis = Horizontal | Vertical

  datatype Error =
    | FitError(axis: Axis)       // `randint(0, n)` with `n < 0`
    | KeyError(key: string)      // `existing_annotations[key]` with no such key

  datatype Result<+T> = Success(value: T) | Failure(error: Error) {

    predicate IsFailure() {
      Failure?
    }

    function PropagateFailure<U>(): Result<U>
      requires Failure?
    {
      Failure(error)
    }

    function Extract(): T
      requires Success?
    {
      value
    }
  }
}

=== FILE: records.dfy ===
/** Annotation records and their CSV lines (synthesize.py:71, 74-81, 96, 105-112).

    A record is one row of the dataset: the cloud path of the composite and a
    normalised box; its label is always `Signature`. Python's decimal rendering
    of a float is not modelled: the rendering is the parameter `fmt`.
 */
module Records {
  import opened Config
  import opened Boxes

  /** The composite's path relative to the storage prefix (synthesize.py:71, 96). */
  function OutFileName(billBn: string, signBn: string): (f: string)
    ensures |f| == |OutDir| + |billBn| + |signBn| + 7
    ensures f[..|OutDir| + 1] == OutDir + "/"
    ensures f[|f| - 4..] == ".jpg"
    // both base names can be read back at their fixed offsets
    ensures var i := |OutDir| + 1;
      && f[i..i + |billBn|] == billBn
      && f[i + |billBn|..i + |billBn| + 2] == "__"
      && f[i + |billBn| + 2..|f| - 4] == signBn
  {
    OutDir + "/" + billBn + "__" + signBn + ".jpg"
  }

  /** The path every record of one (background, overlay) pair points at. */
  function CloudPath(billBn: string, signBn: string): (p: string)
    ensures |p| == |CloudStoragePrefix| + |OutDir| + |billBn| + |signBn| + 7
    ensures CloudStoragePrefix <= p
    ensures p[|CloudStoragePrefix|..|CloudStoragePrefix| + |OutDir| + 1] == OutDir + "/"
    ensures p[|p| - 4..] == ".jpg"
    // both base names can be read back at their fixed offsets
    ensures var i := |CloudStoragePrefix| + |OutDir| + 1;
      && p[i..i + |billBn|] == billBn
      && p[i + |billBn|..i + |billBn| + 2] == "__"
      && p[i + |billBn| + 2..|p| - 4] == signBn
  {
    CloudStoragePrefix + OutFileName(billBn, signBn)
  }

  lemma OutFileNameExample()
    ensures OutFileName("Ahola-1", "sig07") == "synthesized_2/Ahola-1__sig07.jpg"
  {
    assert OutDir + "/" + "Ahola-1" + "__" + "sig07" + ".jpg" == "synthesized_2/Ahola-1__sig07.jpg";
  }

  lemma CloudPathExample()
    ensures CloudPath("Ahola-1", "sig07") == "gs://phqb-automl-data/img/synthesized_2/Ahola-1__sig07.jpg"
  {
    OutFileNameExample();
    PrefixedExample();
  }

  lemma PrefixedExample()
    ensures CloudStoragePrefix + "synthesized_2/Ahola-1__sig07.jpg"
      == "gs://phqb-automl-data/img/synthesized_2/Ahola-1__sig07.jpg"
  {
  }

  /** The fixed parts of the path hold no comma, so the path holds one exactly
      when one of the two base names does. */
  lemma CloudPathComma(billBn: string, signBn: string)
    ensures ',' in CloudPath(billBn, signBn) <==> ',' in billBn || ',' in signBn
  {
    NoCommaPrefix();
    var p := CloudPath(billBn, signBn);
    assert p == CloudStoragePrefix + OutDir + "/" + billBn + "__" + signBn + ".jpg";
  }

  lemma NoCommaPrefix()
    ensures ',' !in CloudStoragePrefix && ',' !in OutDir
  {
  }

  datatype Record = Record(path: string, box: Box)

  /** The eleven fields of a record's line, in column order. */
  function Fields(rec: Record, fmt: real -> string): seq<string> {
    ["UNASSIGNED", rec.path, "Signature", fmt(rec.box.left), fmt(rec.box.top), "", "",
     fmt(rec.box.right), fmt(rec.box.bottom), "", ""]
  }

  /** The line `UNASSIGNED,<path>,Signature,<l>,<t>,,,<r>,<b>,,` that the
      source's format string builds: the eleven fields joined by commas. */
  function Line(rec: Record, fmt: real -> string): (l: string)
    // no escaping is done: every comma in the path or a rendered number adds a field
    ensures |Split(l)| ==
      11 + Commas(rec.path) + Commas(fmt(rec.box.left)) + Commas(fmt(rec.box.top))
         + Commas(fmt(rec.box.right)) + Commas(fmt(rec.box.bottom))
  {
    var l := Join(Fields(rec, fmt));
    SplitCount(l);
    CommasJoin(Fields(rec, fmt));
    FieldsCommas(rec, fmt);
    l
  }

  /** Fields joined with commas. */
  function Join(fields: seq<string>): string
    decreases |fields|
  {
    if |fields| == 0 then ""
    else if |fields| == 1 then fields[0]
    else fields[0] + "," + Join(fields[1..])
  }

  /** Splits a line at every comma; a line always has at least one field. */
  function Split(s: string): (r: seq<string>)
    ensures |r| >= 1
  {
    if |s| == 0 then [""]
    else
      var rest := Split(s[1..]);
      if s[0] == ',' then [""] + rest else [[s[0]] + rest[0]] + rest[1..]
  }

  function Commas(s: string): nat {
    if |s| == 0 then 0 else (if s[0] == ',' then 1 else 0) + Commas(s[1..])
  }

  /** A line has one field more than it has commas. */
  lemma {:induction false} SplitCount(s: string)
    ensures |Split(s)| == Commas(s) + 1
  {
    if |s| > 0 {
      SplitCount(s[1..]);
    }
  }

  lemma {:induction false} CommasAppend(a: string, b: string)
    ensures Commas(a + b) == Commas(a) + Commas(b)
  {
    if |a| > 0 {
      assert (a + b)[1..] == a[1..] + b;
      CommasAppend(a[1..], b);
    } else {
      assert a + b == b;
    }
  }

  lemma {:induction false} CommasNone(a: string)
    ensures Commas(a) == 0 <==> ',' !in a
  {
    if |a| > 0 {
      CommasNone(a[1..]);
      assert a == [a[0]] + a[1..];
    }
  }

  /** A comma-free prefix followed by a comma is exactly the first field. */
  lemma {:induction false} SplitFirst(a: string, b: string)
    requires ',' !in a
    ensures Split(a + "," + b) == [a] + Split(b)
  {
    if |a| == 0 {
      assert a + "," + b == "," + b;
      assert ("," + b)[1..] == b;
    } else {
      var s := a + "," + b;
      assert s[0] == a[0];
      assert s[1..] == a[1..] + "," + b;
      SplitFirst(a[1..], b);
      assert [a[0]] + a[1..] == a;
    }
  }

  lemma {:induction false} SplitNoComma(a: string)
    requires ',' !in a
    ensures Split(a) == [a]
  {
    if |a| > 0 {
      SplitNoComma(a[1..]);
      assert [a[0]] + a[1..] == a;
    }
  }

  /** Splitting undoes joining whenever no field holds a comma. */
  lemma {:induction false} SplitJoin(fields: seq<string>)
    requires |fields| >= 1
    requires forall i | 0 <= i < |fields| :: ',' !in fields[i]
    ensures Split(Join(fields)) == fields
    decreases |fields|
  {
    if |fields| == 1 {
      SplitNoComma(fields[0]);
    } else {
      SplitFirst(fields[0], Join(fields[1..]));
      SplitJoin(fields[1..]);
    }
  }

  /** Record shape: when neither the path nor any rendered number holds a comma,
      the line splits back into exactly its eleven fields, with fields 6, 7, 10
      and 11 empty. */
  lemma LineFields(rec: Record, fmt: real -> string)
    requires ',' !in rec.path
    requires ',' !in fmt(rec.box.left) && ',' !in fmt(rec.box.top)
    requires ',' !in fmt(rec.box.right) && ',' !in fmt(rec.box.bottom)
    ensures Split(Line(rec, fmt)) == Fields(rec, fmt)
    ensures |Split(Line(rec, fmt))| == 11
  {
    SplitJoin(Fields(rec, fmt));
  }

  lemma FieldsCommas(rec: Record, fmt: real -> string)
    ensures TotalCommas(Fields(rec, fmt)) ==
      Commas(rec.path) + Commas(fmt(rec.box.left)) + Commas(fmt(rec.box.top))
         + Commas(fmt(rec.box.right)) + Commas(fmt(rec.box.bottom))
  {
    var f := Fields(rec, fmt);
    TotalCommasEleven(f);
    NoCommaLiterals();
    assert f[0] == "UNASSIGNED" && f[2] == "Signature";
    assert f[5] == "" && f[6] == "" && f[9] == "" && f[10] == "";
  }

  lemma NoCommaLiterals()
    ensures Commas("UNASSIGNED") == 0 && Commas("Signature") == 0 && Commas("") == 0
  {
    CommasNone("UNASSIGNED");
    CommasNone("Signature");
  }

  lemma TotalCommasEleven(f: seq<string>)
    requires |f| == 11
    ensures TotalCommas(f) == Commas(f[0]) + Commas(f[1]) + Commas(f[2]) + Commas(f[3])
      + Commas(f[4]) + Commas(f[5]) + Commas(f[6]) + Commas(f[7]) + Commas(f[8])
      + Commas(f[9]) + Commas(f[10])
  {
    TotalCommasTail(f, 10);
    TotalCommasTail(f, 9);
    TotalCommasTail(f, 8);
    TotalCommasTail(f, 7);
    TotalCommasTail(f, 6);
    TotalCommasTail(f, 5);
    TotalCommasTail(f, 4);
    TotalCommasTail(f, 3);
    TotalCommasTail(f, 2);
    TotalCommasTail(f, 1);
    TotalCommasTail(f, 0);
    assert f[0..] == f;
    assert f[11..] == [];
  }

  lemma TotalCommasTail(fields: seq<string>, k: nat)
    requires k < |fields|
    ensures TotalCommas(fields[k..]) == Commas(fields[k]) + TotalCommas(fields[k + 1..])
  {
    assert fields[k..][1..] == fields[k + 1..];
  }

  function TotalCommas(fields: seq<string>): nat {
    if |fields| == 0 then 0 else Commas(fields[0]) + TotalCommas(fields[1..])
  }

  /** Joining `n` fields adds `n - 1` commas to those the fields already hold. */
  lemma {:induction false} CommasJoin(fields: seq<string>)
    requires |fields| >= 1
    ensures Commas(Join(fields)) == |fields| - 1 + TotalCommas(fields)
    decreases |fields|
  {
    if |fields| == 1 {
      assert fields[1..] == [];
    } else {
      CommasJoin(fields[1..]);
      CommasAppend(fields[0] + ",", Join(fields[1..]));
      CommasAppend(fields[0], ",");
      assert Commas(",") == 1;
    }
  }
}

=== FILE: synthesis.dfy ===
/** One (background, overlay) pairing: `fuzzy_existing_annotations` and the
    geometry and record-building parts of `synthesize` (synthesize.py:70-112).

    The two ImageMagick calls are not modelled; for a successful pairing this
    model returns in their place the geometry they receive (resize target,
    rotation angle, offset and output file), and the size `identify` reports
    for the rotated overlay is one of the draws. A failing pairing returns
    only the error, although by then the script has run the resize and, before
    a missing-table-entry failure, written the composite.
 */
module Synthesis {
  import opened Config
  import opened Outcomes
  import opened Boxes
  import opened Annotations
  import opened Geometry
  import opened Fuzz
  import opened Records

  /** An image known by its base name and its probed size. */
  datatype Image = Image(name: string, size: Size)

  /** Everything `synthesize` draws or probes, in the order it happens. */
  datatype Draws = Draws(
    width: int,            // randint(150, 200), line 84
    angle: real,           // random(), line 86
    rotated: Size,         // identify on the transformed overlay, line 89
    left: int,             // randint(0, W - w), line 91
    top: int,              // randint(0, H - h), line 92
    jitters: seq<Jitter>)  // four random() per known box, lines 56-59

  /** The draws a run can produce for a pairing with background `bill`. */
  predicate ValidDraws(d: Draws, bill: Image, table: Table) {
    && SignWidthMin <= d.width <= SignWidthMax
    && Unit(d.angle)
    && (d.rotated.w <= bill.size.w ==> 0 <= d.left <= bill.size.w - d.rotated.w)
    && (d.rotated.h <= bill.size.h ==> 0 <= d.top <= bill.size.h - d.rotated.h)
    && (bill.name in table ==> |d.jitters| == |table[bill.name]|)
    && forall i | 0 <= i < |d.jitters| :: ValidJitter(d.jitters[i])
  }

  /** What one pairing hands to the image tool, and the records it returns. */
  datatype Composite = Composite(
    resizeWidth: int, resizeHeight: int, angle: int,  // `convert -resize WxH -rotate deg`
    left: int, top: int,                              // `-geometry +left+top`
    outFile: string,                                  // the composite written
    records: seq<Record>)

  /** The placed box, normalised and rounded to three decimals (synthesize.py:100-103). */
  function PlacedBox(p: PixelBox, bill: Size): (b: Box)
    requires 0 <= p.left <= p.right <= bill.w && 0 <= p.top <= p.bottom <= bill.h
    ensures Inside(b, 1.0, 1.0)
    ensures Rounded3(p.left as real / bill.w as real, b.left)
    ensures Rounded3(p.top as real / bill.h as real, b.top)
    ensures Rounded3(p.right as real / bill.w as real, b.right)
    ensures Rounded3(p.bottom as real / bill.h as real, b.bottom)
  {
    NormalizeInsideUnit(ToReal(p), bill.w, bill.h);
    RoundBox(Normalize(ToReal(p), bill.w, bill.h))
  }

  /** `fuzzy_existing_annotations`: one record per known box of the background,
      jittered and normalised but not rounded, all pointing at the pair's
      composite; a background missing from the table is a `KeyError`
      (synthesize.py:70-81). */
  function FuzzyRecords(bill: Image, sign: Image, jitters: seq<Jitter>, table: Table)
    : (r: Result<seq<Record>>)
    requires bill.name in table ==> |jitters| == |table[bill.name]|
    requires forall i | 0 <= i < |jitters| :: ValidJitter(jitters[i])
    ensures r.Success? <==> bill.name in table
    ensures r.Failure? ==> r.error == KeyError(bill.name)
    ensures r.Success? ==>
      && |r.value| == |table[bill.name]|
      && (forall i | 0 <= i < |r.value| :: r.value[i].path == CloudPath(bill.name, sign.name))
      && (forall i | 0 <= i < |r.value| ::
            Denormalize(r.value[i].box, bill.size.w, bill.size.h) == FuzzyDim(table[bill.name][i], jitters[i]))
      && (forall i | 0 <= i < |r.value| ::
            Jittered(table[bill.name][i], Denormalize(r.value[i].box, bill.size.w, bill.size.h)))
  {
    if bill.name !in table then Failure(KeyError(bill.name))
    else
      var boxes := FuzzyBoxes(table[bill.name], jitters, bill.size);
      var path := CloudPath(bill.name, sign.name);
      Success(seq(|boxes|, i requires 0 <= i < |boxes| => Record(path, boxes[i])))
  }

  /** The overlay fits inside the background once rotated. */
  predicate Fits(d: Draws, bill: Image) {
    d.rotated.w <= bill.size.w && d.rotated.h <= bill.size.h
  }

  /** `synthesize`: resize, rotate, place, then one record for the placed
      overlay followed by the fuzzed known boxes (synthesize.py:83-112). */
  function Synthesize(sign: Image, bill: Image, d: Draws, table: Table): (r: Result<Composite>)
    requires ValidDraws(d, bill, table)
    // the first failure the source would raise
    ensures r.Success? <==> Fits(d, bill) && bill.name in table
    ensures !Fits(d, bill) ==>
      r == Failure(FitError(if d.rotated.w > bill.size.w then Horizontal else Vertical))
    ensures Fits(d, bill) && bill.name !in table ==> r == Failure(KeyError(bill.name))
    // the geometry handed to the image tool
    ensures r.Success? ==>
      && SignWidthMin <= r.value.resizeWidth <= SignWidthMax
      && r.value.resizeHeight * sign.size.w <= sign.size.h * r.value.resizeWidth
      && sign.size.h * r.value.resizeWidth < (r.value.resizeHeight + 1) * sign.size.w
      && -FuzzyDeg <= r.value.angle < FuzzyDeg
      && 0 <= r.value.left && r.value.left + d.rotated.w <= bill.size.w
      && 0 <= r.value.top && r.value.top + d.rotated.h <= bill.size.h
      && r.value.outFile == OutFileName(bill.name, sign.name)
    // ... and it is the one the draws select
    ensures r.Success? ==>
      && r.value.resizeWidth == d.width
      && r.value.left == d.left && r.value.top == d.top
      // the angle is `2 * r * 20 - 20` truncated toward zero
      && var x := 2.0 * d.angle * FuzzyDeg as real - FuzzyDeg as real;
         (if x >= 0.0 then r.value.angle as real <= x < r.value.angle as real + 1.0
          else r.value.angle as real - 1.0 < x <= r.value.angle as real)
    // the records
    ensures r.Success? ==>
      && |r.value.records| == 1 + |table[bill.name]|
      && (forall i | 0 <= i < |r.value.records| ::
            r.value.records[i].path == CloudStoragePrefix + r.value.outFile)
      && Inside(r.value.records[0].box, 1.0, 1.0)
      && (forall i | 1 <= i < |r.value.records| ::
            Jittered(table[bill.name][i - 1],
                     Denormalize(r.value.records[i].box, bill.size.w, bill.size.h)))
  {
    var height := ResizeHeight(sign.size, d.width);
    var deg := RotationAngle(d.angle);
    var placed :- Place(bill.size, d.rotated, d.left, d.top);
    var outFile := OutFileName(bill.name, sign.name);
    var first := Record(CloudPath(bill.name, sign.name), PlacedBox(placed, bill.size));
    var fuzzed :- FuzzyRecords(bill, sign, d.jitters, table);
    Success(Composite(d.width, height, deg, placed.left, placed.top, outFile, [first] + fuzzed))
  }

  /** The first record is the placed overlay: each coordinate is the placement
      offset or far edge over the background size, rounded to three decimals. */
  lemma FirstRecordIsPlacement(sign: Image, bill: Image, d: Draws, table: Table)
    requires ValidDraws(d, bill, table)
    requires Fits(d, bill) && bill.name in table
    ensures var c := Synthesize(sign, bill, d, table).value;
      var b := c.records[0].box;
      && Rounded3(c.left as real / bill.size.w as real, b.left)
      && Rounded3(c.top as real / bill.size.h as real, b.top)
      && Rounded3((c.left + d.rotated.w) as real / bill.size.w as real, b.right)
      && Rounded3((c.top + d.rotated.h) as real / bill.size.h as real, b.bottom)
  {
  }

  /** The fuzzed records are the known boxes of the background, each moved by
      its own four draws and normalised. */
  lemma FuzzedRecordsAreJitters(sign: Image, bill: Image, d: Draws, table: Table)
    requires ValidDraws(d, bill, table)
    requires Fits(d, bill) && bill.name in table
    ensures var c := Synthesize(sign, bill, d, table).value;
      && |c.records| == 1 + |d.jitters|
      && forall i | 1 <= i < |c.records| ::
           Denormalize(c.records[i].box, bill.size.w, bill.size.h)
             == FuzzyDim(table[bill.name][i - 1], d.jitters[i - 1])
  {
    var c := Synthesize(sign, bill, d, table).value;
    var fuzzed := FuzzyRecords(bill, sign, d.jitters, table).value;
    assert c.records[1..] == fuzzed;
    forall i | 1 <= i < |c.records|
      ensures Denormalize(c.records[i].box, bill.size.w, bill.size.h)
                == FuzzyDim(table[bill.name][i - 1], d.jitters[i - 1])
    {
      assert c.records[i] == fuzzed[i - 1];
    }
  }

  /** The source's output for one pairing: one CSV line per record. */
  function SynthesizeLines(sign: Image, bill: Image, d: Draws, table: Table, fmt: real -> string)
    : (r: Result<seq<string>>)
    requires ValidDraws(d, bill, table)
    ensures r.Success? <==> Fits(d, bill) && bill.name in table
    ensures r.Success? ==> |r.value| == 1 + |table[bill.name]|
  {
    var c :- Synthesize(sign, bill, d, table);
    Success(seq(|c.records|, i requires 0 <= i < |c.records| => Line(c.records[i], fmt)))
  }

  /** Record shape: when the base names and every rendered number are
      comma-free, each line of a pairing has exactly eleven fields, the second
      of which is the pair's composite path. */
  lemma SynthesizeLinesShape(sign: Image, bill: Image, d: Draws, table: Table, fmt: real -> string)
    requires ValidDraws(d, bill, table)
    requires ',' !in bill.name && ',' !in sign.name
    requires forall x :: ',' !in fmt(x)
    requires Fits(d, bill) && bill.name in table
    ensures var lines := SynthesizeLines(sign, bill, d, table, fmt).value;
      var c := Synthesize(sign, bill, d, table).value;
      |lines| == |c.records| &&
      forall i | 0 <= i < |lines| ::
        var fields := Split(lines[i]);
        |fields| == 11 && fields[0] == "UNASSIGNED" && fields[1] == CloudPath(bill.name, sign.name)
        && fields[2] == "Signature" && fields[5] == "" && fields[6] == "" && fields[9] == "" && fields[10] == ""
        && fields[3] == fmt(c.records[i].box.left) && fields[4] == fmt(c.records[i].box.top)
        && fields[7] == fmt(c.records[i].box.right) && fields[8] == fmt(c.records[i].box.bottom)
  {
    var c := Synthesize(sign, bill, d, table).value;
    var lines := SynthesizeLines(sign, bill, d, table, fmt).value;
    CloudPathComma(bill.name, sign.name);
    forall i | 0 <= i < |lines|
      ensures var fields := Split(lines[i]);
        |fields| == 11 && fields[0] == "UNASSIGNED" && fields[1] == CloudPath(bill.name, sign.name)
        && fields[2] == "Signature" && fields[5] == "" && fields[6] == "" && fields[9] == "" && fields[10] == ""
        && fields[3] == fmt(c.records[i].box.left) && fields[4] == fmt(c.records[i].box.top)
        && fields[7] == fmt(c.records[i].box.right) && fields[8] == fmt(c.records[i].box.bottom)
    {
      LineFields(c.records[i], fmt);
    }
  }

  /** Every fuzzed copy of a known box keeps `left < right` and `top < bottom`:
      the known boxes are all wider and taller than twice the jitter bound. */
  lemma KnownRecordsStayOriented(sign: Image, bill: Image, jitters: seq<Jitter>)
    requires bill.name in Known && |jitters| == |Known[bill.name]|
    requires forall i | 0 <= i < |jitters| :: ValidJitter(jitters[i])
    ensures var recs := FuzzyRecords(bill, sign, jitters, Known).value;
      forall i | 0 <= i < |recs| :: recs[i].box.left < recs[i].box.right && recs[i].box.top < recs[i].box.bottom
  {
    var recs := FuzzyRecords(bill, sign, jitters, Known).value;
    forall i | 0 <= i < |recs|
      ensures recs[i].box.left < recs[i].box.right && recs[i].box.top < recs[i].box.bottom
    {
      KnownBoxSturdy(bill.name, i);
      assert Jittered(Known[bill.name][i], Denormalize(recs[i].box, bill.size.w, bill.size.h));
      JitteredSturdyOriented(Known[bill.name][i], recs[i].box, bill.size);
    }
  }

  /** A normalised box whose pixel version is a jitter of a box at least 20
      pixels on each side keeps its orientation. */
  lemma JitteredSturdyOriented(p: PixelBox, n: Box, bill: Size)
    requires Sturdy(p, 2 * SignWidthFuzzy)
    requires Jittered(p, Denormalize(n, bill.w, bill.h))
    ensures n.left < n.right && n.top < n.bottom
  {
    var w, h := bill.w as real, bill.h as real;
    var b := Denormalize(n, bill.w, bill.h);
    assert b.left == n.left * w && b.right == n.right * w;
    assert b.top == n.top * h && b.bottom == n.bottom * h;
    assert b.left < p.left as real + 10.0 && p.right as real - 10.0 <= b.right;
    assert b.top < p.top as real + 10.0 && p.bottom as real - 10.0 <= b.bottom;
    assert b.left < b.right && b.top < b.bottom;
    CancelStrict(n.left, n.right, w);
    CancelStrict(n.top, n.bottom, h);
  }

  /** A background of the table with two known boxes, paired with one overlay
      that fits, yields three records: the placed one inside the unit square
      and two jittered copies of the known boxes. */
  lemma KnownBackgroundScenario(sign: Image, bill: Image, d: Draws)
    requires bill.name == "2728cmr" && sign.size == Size(300, 100)
    requires ValidDraws(d, bill, Known) && Fits(d, bill)
    ensures var r := Synthesize(sign, bill, d, Known);
      && r.Success? && |r.value.records| == 3
      && r.value.resizeHeight == r.value.resizeWidth / 3 && 50 <= r.value.resizeHeight <= 66
      && Inside(r.value.records[0].box, 1.0, 1.0)
      && Jittered(PixelBox(387, 962, 476, 1075), Denormalize(r.value.records[1].box, bill.size.w, bill.size.h))
      && Jittered(PixelBox(531, 987, 609, 1065), Denormalize(r.value.records[2].box, bill.size.w, bill.size.h))
  {
    KnownShape();
    ResizeHeightIsQuotient(sign.size, d.width);
  }

  /** A background missing from the table fails the whole pairing once the
      overlay has been placed. */
  lemma UnknownBackgroundFails(sign: Image, bill: Image, d: Draws)
    requires bill.name !in Known
    requires ValidDraws(d, bill, Known) && Fits(d, bill)
    ensures Synthesize(sign, bill, d, Known) == Failure(KeyError(bill.name))
  {
  }
}
